=== FILE: README.md ===
# Particle engine of SportsView, in Dafny

This project models the particle engine of the SportsView Android app
(`ParticleSystem` and its `RotationInitializer`). It also proves properties
of that model.

A particle system is built with a fixed number of particles, which all start
in a pool. Builder calls register initializers, which set a particle's
properties when it is activated, and modifiers, which act on every tick of a
particle's life. `prepareEmitting` starts emission at a rate of
`particlesPerSecond`. It also fixes an emitter rectangle that particles start
from. Each tick (`onUpdate(ms)`) does two things:

- **Emission.** It activates particles from the head of the pool while three
  conditions hold: the cutoff allows emission, the pool is not empty, and the
  count of particles activated so far is below the rate times `ms`.
- **Update.** It walks the active list once and returns every particle whose
  update reports it expired to the tail of the pool.

`stopEmitting` sets the cutoff to the current time.

Modules, one per file:

- `Options` (options.dfy): `Option`.
- `Randomness` (random.dfy): the random source, an oracle over an arbitrary
  stream of raw draws.
- `Particles` (particle.dfy): the reusable particle object, and the modifiers.
- `Initializers` (initializers.dfy): the rotation initializer, and the other
  initializers as values.
- `Sampling` (sampling.dfy): `getFromRange` and the angle normalisation, on
  unbounded integers.
- `Tick` (tick.dfy): what a tick does, as functions of the state it starts
  from.
  - `EmitCount` is how many particles the emission loop activates.
  - `Survivors` and `Expired` are what the update loop keeps and returns to the
    pool.
- `Engine` (particle_system.dfy): the `ParticleSystem` class.
  - Its `pool` and `active` lists are updated in place by the emission and
    update loops.
  - Its invariant `Valid` states pool conservation. Every particle created at
    construction is either pooled or active, and exactly once.
- `Overflow` (overflow.dfy): the two integer helpers on 32-bit `int`s, as the
  program computes them (see Findings).

Two behaviours of the code are worth stating outright:

- **Catch-up bursts.** The activation count is compared with a quota measured
  from absolute time (`rate × ms`, ParticleSystem.java:357). A system whose
  pool ran dry therefore activates, in one tick, everything the rate still
  owes, up to the pool's size (`Tick.EmitCountClosedForm`).
- **Ticks before `prepareEmitting`.** The cutoff field starts at 0, so such a
  tick emits nothing and only runs the update loop
  (`Tick.NoEmissionAfterStop`).

The guard of the emission loop is written with three predicates:
- `Tick.EmissionOpen` is the cutoff rule: -1 means no limit, a positive
  cutoff allows ticks before it, and anything else forbids emission.
- `Tick.BelowRate` is the rate rule, `activated * 1000 < particlesPerSecond * ms`.
- `Engine.ParticleSystem.DpToPx` is `dpToPx`. It multiplies by the display scale,
  which the constructor takes as the parameter `pxPerDp`.

## Model

| member | source | states |
|---|---|---|
| Initializers.RotationInitializer.constructor | app/src/main/java/com/nxmtl/android/sportsview/initializers/RotationInitializer.java:14-17 | the angle bounds are the constructor's arguments; they are constants and never change afterwards |
| Initializers.RotationInitializer.InitParticle | app/src/main/java/com/nxmtl/android/sportsview/initializers/RotationInitializer.java:20-22 | equal bounds set the rotation to that angle without a draw; otherwise one draw is taken and the rotation is that draw reduced modulo the width plus minAngle, so it lies in [minAngle, maxAngle); only the particle's rotation and the random source change; minAngle > maxAngle is excluded, because nextInt throws for it |
| Randomness.Random.NextInt | app/src/main/java/com/nxmtl/android/sportsview/initializers/RotationInitializer.java:21 | a draw lies in [0, bound) and consumes exactly one value of the stream |
| Particles.Particle.Configure | app/src/main/java/com/nxmtl/android/sportsview/ParticleSystem.java:336 | sets the particle's lifetime and origin, and nothing else |
| Particles.Particle.Activate | app/src/main/java/com/nxmtl/android/sportsview/ParticleSystem.java:337 | records the start time and the modifier list, and nothing else |
| Initializers.LastRotationNone | app/src/main/java/com/nxmtl/android/sportsview/ParticleSystem.java:331-333 | no rotation takes effect exactly when no rotation initializer is registered |
| Initializers.LastRotationIsLast | app/src/main/java/com/nxmtl/android/sportsview/ParticleSystem.java:331-333 | because initializers run in registration order, the rotation a particle keeps comes from a registered rotation initializer with no other one after it |
| Engine.UpdateStep | app/src/main/java/com/nxmtl/android/sportsview/ParticleSystem.java:364-368 | the index points at the first particle not yet visited; removing it when expired (the `i--` rewind) or stepping past it when alive keeps one more particle visited, with none skipped |
| Initializers.LastRotationAppend | app/src/main/java/com/nxmtl/android/sportsview/ParticleSystem.java:331-333 | registering more initializers changes the effective rotation exactly when one of the new ones is a rotation initializer |
| Sampling.FromRange | app/src/main/java/com/nxmtl/android/sportsview/ParticleSystem.java:342-352 | equal bounds give that bound; otherwise the value lies between the smaller bound (included) and the larger (excluded), whichever order the bounds come in; defined for all integers |
| Sampling.FromRangeCovers | app/src/main/java/com/nxmtl/android/sportsview/ParticleSystem.java:342-352 | every value of that range is produced by some draw |
| Sampling.NormalizeMaxAngle | app/src/main/java/com/nxmtl/android/sportsview/ParticleSystem.java:161-163 | the loop ends with a maximum no less than the minimum that differs from the input by whole turns; an input already at least the minimum is unchanged; one below it lands in [minAngle, minAngle + 360); the result equals the closed form NormalizedMaxAngle |
| Tick.EmitCount | app/src/main/java/com/nxmtl/android/sportsview/ParticleSystem.java:355-360 | the emission loop activates at most the pool's size, and activates something only when the cutoff is open and the count is below the rate |
| Tick.BelowRateQuota | app/src/main/java/com/nxmtl/android/sportsview/ParticleSystem.java:357 | the rate guard holds exactly when the count is below the ceiling of rate × time |
| Tick.EmitCountClosedForm | app/src/main/java/com/nxmtl/android/sportsview/ParticleSystem.java:355-360 | a tick activates nothing when the cutoff is closed or the rate is met; otherwise it activates everything the rate still owes, capped by the pool's size |
| Tick.EmitCountStops | app/src/main/java/com/nxmtl/android/sportsview/ParticleSystem.java:355-360 | the loop ends for one of its three reasons: the pool is empty, the cutoff is closed, or the rate is reached; every round before that was below the rate |
| Tick.NoEmissionAfterStop | app/src/main/java/com/nxmtl/android/sportsview/ParticleSystem.java:355 | with a cutoff other than -1, no tick at or after it activates anything; a cutoff of 0 or less other than -1 (including the initial 0) silences every tick |
| Tick.NoCutoffEmits | app/src/main/java/com/nxmtl/android/sportsview/ParticleSystem.java:355 | a cutoff of -1 (no limit, which stopEmitting sets when the current time is -1) lets a tick below the rate activate from a non-empty pool |
| Tick.NoEmissionAtZeroRate | app/src/main/java/com/nxmtl/android/sportsview/ParticleSystem.java:317 | a rate of 0 never emits |
| Tick.SurvivorsSnoc | app/src/main/java/com/nxmtl/android/sportsview/ParticleSystem.java:361-370 | visiting one more particle extends exactly one of the kept and returned lists by it |
| Tick.SurvivorsExpiredPartition | app/src/main/java/com/nxmtl/android/sportsview/ParticleSystem.java:361-370 | kept and returned particles together are exactly the visited ones: none lost, none duplicated |
| Tick.UpdateConserves | app/src/main/java/com/nxmtl/android/sportsview/ParticleSystem.java:361-370 | appending the returned particles to a pool keeps pool and active list together the same particles, and the same total size |
| Tick.SurvivorsSound | app/src/main/java/com/nxmtl/android/sportsview/ParticleSystem.java:361-370 | every kept particle reported alive and every returned one reported expired, and each came from the visited list |
| Tick.SurvivorsAppend | app/src/main/java/com/nxmtl/android/sportsview/ParticleSystem.java:361-370 | both lists keep the order of the visited list: filtering a concatenation filters each part in turn |
| Tick.AllAliveKeepsAll | app/src/main/java/com/nxmtl/android/sportsview/ParticleSystem.java:361-370 | if every particle is alive, the update loop keeps the list unchanged and returns nothing |
| Engine.OnlyAt | app/src/main/java/com/nxmtl/android/sportsview/ParticleSystem.java:328 | in a pool without repeats, the particle at one position is at no other, so setting it up leaves every other pooled particle alone |
| Engine.DistinctAt | app/src/main/java/com/nxmtl/android/sportsview/ParticleSystem.java:328 | in a pool without repeats, different positions hold different particles, so initialising one leaves the others alone |
| Engine.NoRepeatsPart | app/src/main/java/com/nxmtl/android/sportsview/ParticleSystem.java:32-33 | the pool by itself has no repeats when pool and active list together have none |
| Engine.MoveConserves | app/src/main/java/com/nxmtl/android/sportsview/ParticleSystem.java:328 | moving the first k pooled particles to the active list loses and adds none |
| Engine.TickConserves | app/src/main/java/com/nxmtl/android/sportsview/ParticleSystem.java:354-372 | a whole tick, emission then update, keeps the same particles and the same total count |
| Engine.NewParticles | app/src/main/java/com/nxmtl/android/sportsview/ParticleSystem.java:127-129 | creates exactly n fresh, distinct particles of the requested kind |
| Engine.ParticleSystem.constructor | app/src/main/java/com/nxmtl/android/sportsview/ParticleSystem.java:53-130 | creates maxParticles fresh, distinct particles in the pool, animated exactly for an animation image; the active list, initializers and modifiers start empty; the time, rate, count, cutoff and emitter start at 0; Valid holds |
| Engine.ParticleSystem.AddModifier | app/src/main/java/com/nxmtl/android/sportsview/ParticleSystem.java:137-140 | appends the modifier, and changes nothing else |
| Engine.ParticleSystem.SetSpeedRange | app/src/main/java/com/nxmtl/android/sportsview/ParticleSystem.java:142-145 | appends one speed initializer with the converted speeds and angles 0..360, and changes nothing else |
| Engine.ParticleSystem.SetSpeedModuleAndAngleRange | app/src/main/java/com/nxmtl/android/sportsview/ParticleSystem.java:158-166 | appends one speed initializer whose maximum angle has been normalised (NormalizedMaxAngle), and changes nothing else |
| Engine.ParticleSystem.SetSpeedByComponentsRange | app/src/main/java/com/nxmtl/android/sportsview/ParticleSystem.java:177-181 | appends one component-speed initializer with the four converted speeds, and changes nothing else |
| Engine.ParticleSystem.SetInitialRotationRange | app/src/main/java/com/nxmtl/android/sportsview/ParticleSystem.java:190-193 | appends one new rotation initializer with the given bounds, and changes nothing else |
| Engine.ParticleSystem.SetScaleRange | app/src/main/java/com/nxmtl/android/sportsview/ParticleSystem.java:202-205 | appends one scale initializer, and changes nothing else |
| Engine.ParticleSystem.SetRotationSpeed | app/src/main/java/com/nxmtl/android/sportsview/ParticleSystem.java:213-216 | appends one rotation-speed initializer whose two bounds are the given speed, and changes nothing else |
| Engine.ParticleSystem.SetRotationSpeedRange | app/src/main/java/com/nxmtl/android/sportsview/ParticleSystem.java:225-228 | appends one rotation-speed initializer with the given bounds, and changes nothing else |
| Engine.ParticleSystem.SetAccelerationModuleAndAndAngleRange | app/src/main/java/com/nxmtl/android/sportsview/ParticleSystem.java:241-245 | appends one acceleration initializer with converted magnitudes and the angles as given, not normalised, and changes nothing else |
| Engine.ParticleSystem.AddInitializer | app/src/main/java/com/nxmtl/android/sportsview/ParticleSystem.java:253-258 | appends the initializer if there is one; a missing initializer changes nothing |
| Engine.ParticleSystem.SetAcceleration | app/src/main/java/com/nxmtl/android/sportsview/ParticleSystem.java:269-272 | appends one acceleration initializer with both bounds equal, unconverted, and changes nothing else |
| Engine.ParticleSystem.SetStartTime | app/src/main/java/com/nxmtl/android/sportsview/ParticleSystem.java:276-279 | sets the current time, and changes nothing else |
| Engine.ParticleSystem.SetFadeOut | app/src/main/java/com/nxmtl/android/sportsview/ParticleSystem.java:287-290 | appends one alpha fade from 255 to 0 over the last given milliseconds of the lifetime, and changes nothing else |
| Engine.ParticleSystem.SetLinearFadeOut | app/src/main/java/com/nxmtl/android/sportsview/ParticleSystem.java:297-299 | the same fade with the linear interpolator |
| Engine.ParticleSystem.ConfigureEmitter | app/src/main/java/com/nxmtl/android/sportsview/ParticleSystem.java:303-312 | a missing array, or one with fewer than 4 values, leaves the four bounds unchanged; otherwise they are the first four values, in order |
| Engine.ParticleSystem.PrepareEmitting | app/src/main/java/com/nxmtl/android/sportsview/ParticleSystem.java:314-321 | configures the emitter, resets the count to 0, sets the rate, and lifts the cutoff (-1); Valid is kept |
| Engine.ParticleSystem.UpdateEmitPoint | app/src/main/java/com/nxmtl/android/sportsview/ParticleSystem.java:323-325 | only reconfigures the emitter |
| Engine.ParticleSystem.StopEmitting | app/src/main/java/com/nxmtl/android/sportsview/ParticleSystem.java:374-377 | the cutoff becomes the current time |
| Engine.ParticleSystem.GetFromRange | app/src/main/java/com/nxmtl/android/sportsview/ParticleSystem.java:342-352 | the value is FromRange applied to the next raw draw; it draws only when the bounds differ |
| Engine.ParticleSystem.RunInitializers | app/src/main/java/com/nxmtl/android/sportsview/ParticleSystem.java:331-333 | after running the initializers in order, the particle's rotation is what the last rotation initializer drew: FromRange of its bounds applied to the raw draw numbered by the ghost result, a draw taken during the call, and so within its range; with no rotation initializer the rotation is unchanged |
| Engine.ParticleSystem.ActivateParticle | app/src/main/java/com/nxmtl/android/sportsview/ParticleSystem.java:327-340 | moves the pool's head to the end of the active list (with Engine.MoveConserves at k = 1, no particle is lost or added), initialised and activated at the given time with the current lifetime and modifiers; its origin is getFromRange of the emitter bounds applied to draws taken during the call, and, when a rotation initializer is registered, its rotation is the last one's draw; the ghost result numbers those draws; with no rotation initializer the rotation is unchanged; the count goes up by exactly 1 |
| Engine.ParticleSystem.EmitParticles | app/src/main/java/com/nxmtl/android/sportsview/ParticleSystem.java:355-360 | moves exactly the first EmitCount particles of the pool, in order, to the end of the active list, each activated at the tick's time with the current lifetime and modifiers, placed inside the emitter, with the rotation in the last rotation initializer's range; with no rotation initializer their rotation is unchanged; the particles left in the pool are untouched; the count goes up by that number |
| Engine.ParticleSystem.UpdateParticles | app/src/main/java/com/nxmtl/android/sportsview/ParticleSystem.java:361-370 | visits every active particle once, in order, with none skipped (the ghost result is the visited list); the active list becomes Survivors and the expired particles are appended to the pool in the order met |
| Engine.ParticleSystem.OnUpdate | app/src/main/java/com/nxmtl/android/sportsview/ParticleSystem.java:354-372 | a tick is emission then update: the new state is given by EmitCount, Survivors and Expired of the state before; pooled particles beyond the first EmitCount are untouched; Valid (pool conservation, no particle twice) is kept |
| Engine.StopThenTick | app/src/main/java/com/nxmtl/android/sportsview/ParticleSystem.java:374-377 | after stopEmitting at a current time other than -1, a tick at or after the stop time activates nothing; if the stop time is 0 or less, no tick does. The tick only returns expired particles to the pool, and every pooled particle is left as it was |
| Overflow.Wrap32 | app/src/main/java/com/nxmtl/android/sportsview/ParticleSystem.java:162 | Java int arithmetic: the result is a 32-bit value congruent to the exact one modulo 2^32, and is the exact value when that fits |
| Overflow.Wrap32Mod8 | app/src/main/java/com/nxmtl/android/sportsview/ParticleSystem.java:162 | wrapping keeps the remainder modulo 8 |
| Overflow.FromRange32 | app/src/main/java/com/nxmtl/android/sportsview/ParticleSystem.java:342-352 | getFromRange on ints, as written; None is nextInt throwing because the wrapped width is not positive |
| Overflow.FromRange32WidestFails | app/src/main/java/com/nxmtl/android/sportsview/ParticleSystem.java:342-352 | for bounds Integer.MIN_VALUE and Integer.MAX_VALUE, in either order, the call throws whatever the draw |
| Overflow.FromRange32Agrees | app/src/main/java/com/nxmtl/android/sportsview/ParticleSystem.java:342-352 | the call throws exactly when the width exceeds Integer.MAX_VALUE; otherwise it equals Sampling.FromRange |
| Overflow.AngleAfter | app/src/main/java/com/nxmtl/android/sportsview/ParticleSystem.java:161-163 | the value of maxAngle after k iterations of `maxAngle += 360` on an int; it is always a valid int |
| Overflow.AngleAfterMod8 | app/src/main/java/com/nxmtl/android/sportsview/ParticleSystem.java:161-163 | no number of iterations changes maxAngle modulo 8 |
| Overflow.AngleLoopNeverEnds | app/src/main/java/com/nxmtl/android/sportsview/ParticleSystem.java:161-163 | for minAngle = Integer.MAX_VALUE and maxAngle = 2147483640 the loop condition holds after every number of iterations |
| Overflow.AngleAfterNoWrap | app/src/main/java/com/nxmtl/android/sportsview/ParticleSystem.java:161-163 | without wrap-around, k iterations add exactly k turns |
| Overflow.AngleLoopAgrees | app/src/main/java/com/nxmtl/android/sportsview/ParticleSystem.java:161-163 | if minAngle is at most Integer.MAX_VALUE - 360, the int loop stops after the same number of turns as the unbounded one, with NormalizedMaxAngle, and the condition held before each of those turns |

## Left out

- Particle.init, Particle.update, the particle kinematics and the modifiers' effects are not part of this model (their sources are not shown). A particle's update is the opaque parameter `alive` of the tick. A particle keeps only the fields the engine itself writes.
- The other initializers (speed, scale, rotation speed, acceleration, custom) are values holding the arguments they were built with. Running them changes nothing in the model, and their random draws are not counted.
- RotationSpeedInitializer, and the float speeds, scales and accelerations: floating point is modelled as `real`, without rounding.
- The emission rate `particlesPerSecond / 1000f` is compared exactly, as `activated * 1000 < particlesPerSecond * ms`. Float rounding of the rate is not modelled.
- `dpToPx` reads the display's density. That scale is the constructor parameter `pxPerDp`.
- Drawing: the Drawable/Bitmap/AnimationDrawable branches of the constructors keep only whether particles animate. The drawing view, `setParticles`, `postInvalidate` and the `synchronized` block are left out; the update loop keeps only its sequential effect.
- The builder methods return `this` for chaining; the model's methods return nothing.
- `java.util.Random` is an arbitrary stream of raw values. Its generator algorithm is not modelled.
- The counters and times are unbounded integers in the main model. Overflow of `mActivatedParticles` is not modelled. The 32-bit behaviour of `getFromRange` and of the angle loop is modelled separately, in `Overflow`.
- Initializers.RotationInitializer.InitParticle: the subtraction `maxAngle - minAngle` is taken on unbounded integers. Its 32-bit overflow for bounds more than Integer.MAX_VALUE apart is the same defect as the `getFromRange` finding.
- Engine.ParticleSystem.RunInitializers and the tick require every registered rotation initializer to have minAngle ≤ maxAngle. They require this only when a particle is emitted. The program throws from `nextInt` otherwise.
- Engine.ParticleSystem.EmitParticles: states for each activated particle only that its origin and rotation lie in their ranges. The tie of those values to particular draws of the random stream is stated per activation, by ActivateParticle, and is not carried through the emission loop. Engine.ParticleSystem.OnUpdate inherits this.
- Engine.StopThenTick: requires the current time not to be -1. Stopping at -1 sets the cutoff to the "no limit" value -1, so emission goes on; `Tick.NoCutoffEmits` states that case.
- Particles.Particle.Activate: the program hands each particle the system's own modifier list object, and a later `addModifier` mutates that same list. The model records a copy of the list, so modifiers added after activation are not seen by particles that are already active.
- Engine.ParticleSystem.OnUpdate: pool conservation (`Valid`) holds only under the requires that every rotation initializer has minAngle ≤ maxAngle. In the program a reversed range makes `nextInt` throw after `mParticles.remove(0)` has run. The particle then ends up in neither list, and pool plus active shrinks by one.
- SportsView, MainActivity, DensityUtils, Utils, SportsData and ParticleModifier are not part of this model: UI, threads, bitmaps and interfaces with no logic.

## Findings

| source | as written | input that shows it | evidently intended | confidence | as-written member | corrected member |
|---|---|---|---|---|---|---|
| app/src/main/java/com/nxmtl/android/sportsview/ParticleSystem.java:342-352 | the width `maxValue - minValue` (or `minValue - maxValue`) is an int subtraction that wraps, and `nextInt` throws for the resulting negative bound | `getFromRange(Integer.MIN_VALUE, Integer.MAX_VALUE)`, with any draw | a value between the bounds for every pair of int bounds | low (not executed) | Overflow.FromRange32WidestFails | Sampling.FromRange |
| app/src/main/java/com/nxmtl/android/sportsview/ParticleSystem.java:161-163 | `maxAngle += 360` wraps past Integer.MAX_VALUE, and the loop never ends when no wrapped value reaches minAngle | `setSpeedModuleAndAngleRange(s, s, Integer.MAX_VALUE, 2147483640)` | a maximum angle at least the minimum, differing from the input by whole turns | low (not executed) | Overflow.AngleLoopNeverEnds | Sampling.NormalizeMaxAngle |

=== FILE: initializers.dfy ===
/**
 * Initializers: strategies that set one property of a particle once, when it is
 * activated. The rotation initializer is modelled in full; the others keep the
 * arguments they were built with.
 */
module Initializers {
  import opened Options
  import opened Randomness
  import opened Particles

  /** Sets a particle's initial rotation to a value drawn from its configured angle range. */
  class RotationInitializer {
    const minAngle: int
    const maxAngle: int

    constructor (minAngle: int, maxAngle: int)
      ensures this.minAngle == minAngle && this.maxAngle == maxAngle
    {
      this.minAngle := minAngle;
      this.maxAngle := maxAngle;
    }

    /**
     * Equal bounds give that angle without a draw; otherwise one draw lands in
     * [minAngle, maxAngle). A minimum above the maximum makes `nextInt` throw,
     * so it is excluded here.
     */
    method InitParticle(p: Particle, r: Random)
      requires minAngle <= maxAngle
      modifies p`initialRotation, r
      ensures minAngle == maxAngle ==> p.initialRotation == minAngle && r.taken == old(r.taken)
      ensures minAngle < maxAngle ==>
        minAngle <= p.initialRotation < maxAngle && r.taken == old(r.taken) + 1
      ensures minAngle < maxAngle ==>
        p.initialRotation == r.raw(old(r.taken)) % (maxAngle - minAngle) + minAngle
    {
      if minAngle == maxAngle {
        p.initialRotation := minAngle;
      } else {
        var d := r.NextInt(maxAngle - minAngle);
        p.initialRotation := d + minAngle;
      }
    }
  }

  /** The initializers a particle system can register, with the arguments they were built with. */
  datatype Initializer =
    | SpeedModuleAndRange(speedMin: real, speedMax: real, minAngle: int, maxAngle: int)
    | SpeedByComponents(speedMinX: real, speedMaxX: real, speedMinY: real, speedMaxY: real)
    | Rotation(rotation: RotationInitializer)
    | Scale(minScale: real, maxScale: real)
    | RotationSpeed(minRotationSpeed: real, maxRotationSpeed: real)
    | Acceleration(minAcceleration: real, maxAcceleration: real, minAngle: int, maxAngle: int)
    | Custom(id: nat)

  /** Every rotation initializer in `inits` has a minimum no larger than its maximum. */
  predicate RotationRangesOk(inits: seq<Initializer>) {
    forall i | 0 <= i < |inits| && inits[i].Rotation? ::
      inits[i].rotation.minAngle <= inits[i].rotation.maxAngle
  }

  /**
   * The rotation initializer whose value a particle keeps after all of `inits`
   * have run in order: the last one registered, if there is any.
   */
  function LastRotation(inits: seq<Initializer>): Option<RotationInitializer>
  {
    if inits == [] then None
    else if inits[|inits| - 1].Rotation? then Some(inits[|inits| - 1].rotation)
    else LastRotation(inits[..|inits| - 1])
  }

  /** LastRotation is None exactly when no rotation initializer is registered. */
  lemma {:induction false} LastRotationNone(inits: seq<Initializer>)
    ensures LastRotation(inits).None? <==> forall i | 0 <= i < |inits| :: !inits[i].Rotation?
  {
    if inits != [] {
      var n := |inits| - 1;
      var front := inits[..n];
      LastRotationNone(front);
      assert forall i | 0 <= i < n :: front[i] == inits[i];
    }
  }

  /** LastRotation finds a registered rotation initializer with no other one after it. */
  lemma {:induction false} LastRotationIsLast(inits: seq<Initializer>)
    requires LastRotation(inits).Some?
    ensures exists i | 0 <= i < |inits| ::
      inits[i] == Rotation(LastRotation(inits).value) &&
      forall j | i < j < |inits| :: !inits[j].Rotation?
  {
    var n := |inits| - 1;
    if inits[n].Rotation? {
      assert inits[n] == Rotation(LastRotation(inits).value);
    } else {
      var front := inits[..n];
      assert LastRotation(inits) == LastRotation(front);
      LastRotationIsLast(front);
      var i :| 0 <= i < |front| && front[i] == Rotation(LastRotation(front).value) &&
        forall j | i < j < |front| :: !front[j].Rotation?;
      assert inits[i] == front[i];
      assert forall j | i < j < |inits| :: !inits[j].Rotation? by {
        forall j | i < j < |inits| ensures !inits[j].Rotation? {
          if j < n {
            assert inits[j] == front[j];
          }
        }
      }
    }
  }

  /** Registering more initializers overrides the rotation of earlier ones exactly when a later one sets it. */
  lemma {:induction false} LastRotationAppend(a: seq<Initializer>, b: seq<Initializer>)
    ensures LastRotation(a + b) == if LastRotation(b).Some? then LastRotation(b) else LastRotation(a)
  {
    if b == [] {
      assert a + b == a;
    } else {
      var n := |b| - 1;
      assert (a + b)[..|a + b| - 1] == a + b[..n];
      assert (a + b)[|a + b| - 1] == b[n];
      if !b[n].Rotation? {
        LastRotationAppend(a, b[..n]);
      }
    }
  }
}

=== FILE: options.dfy ===
/** An optional value; `None` stands for Java's `null`. */
module Options {
  datatype Option<+T> = None | Some(value: T)
}

=== FILE: overflow.dfy ===
/**
 * The two integer helpers of the particle system as the program computes them,
 * on 32-bit two's-complement `int`s, next to the unbounded versions in `Sampling`.
 * Each shows an input for which the 32-bit computation fails and the range of
 * inputs on which the two agree.
 */
module Overflow {
  import opened Options
  import opened Sampling

  const INT_MIN: int := -0x8000_0000
  const INT_MAX: int := 0x7fff_ffff
  const TWO_32: int := 0x1_0000_0000

  predicate IsInt32(v: int) {
    INT_MIN <= v <= INT_MAX
  }

  /** The 32-bit `int` an arithmetic result wraps to. */
  function Wrap32(v: int): (r: int)
    ensures IsInt32(r)
    ensures IsInt32(v) ==> r == v
    ensures (r - v) % TWO_32 == 0
  {
    (v - INT_MIN) % TWO_32 + INT_MIN
  }

  /** Wrapping subtracts a multiple of 2^32, so it keeps the remainder modulo 8. */
  lemma Wrap32Mod8(v: int)
    ensures Wrap32(v) % 8 == v % 8
  {
    var q := (v - INT_MIN) / TWO_32;
    assert Wrap32(v) == v - TWO_32 * q;
    assert TWO_32 * q == 8 * (0x2000_0000 * q);
  }

  // getFromRange, 32-bit.

  /**
   * `getFromRange` as written: the distance between the bounds is an `int`
   * subtraction, and `Random.nextInt` rejects a bound that is not positive
   * (`None`: the call throws). `raw` is the draw `nextInt` reduces to its bound.
   */
  function FromRange32(minValue: int, maxValue: int, raw: int): (r: Option<int>)
    requires IsInt32(minValue) && IsInt32(maxValue)
    ensures r.Some? ==> IsInt32(r.value)
  {
    if minValue == maxValue then Some(minValue)
    else
      var lo := if minValue < maxValue then minValue else maxValue;
      var bound := if minValue < maxValue then Wrap32(maxValue - minValue) else Wrap32(minValue - maxValue);
      if bound <= 0 then None else Some(Wrap32(raw % bound + lo))
  }

  /** The widest range, `Integer.MIN_VALUE` to `Integer.MAX_VALUE`, throws whatever the draw. */
  lemma FromRange32WidestFails(raw: int)
    ensures FromRange32(INT_MIN, INT_MAX, raw) == None
    ensures FromRange32(INT_MAX, INT_MIN, raw) == None
  {
    assert Wrap32(INT_MAX - INT_MIN) == -1;
  }

  /**
   * Exactly the ranges whose width exceeds `Integer.MAX_VALUE` throw; on all
   * others the 32-bit computation is the unbounded `Sampling.FromRange`.
   */
  lemma FromRange32Agrees(minValue: int, maxValue: int, raw: int)
    requires IsInt32(minValue) && IsInt32(maxValue)
    ensures FromRange32(minValue, maxValue, raw).None? <==> (minValue - maxValue > INT_MAX || maxValue - minValue > INT_MAX)
    ensures FromRange32(minValue, maxValue, raw).Some? ==> FromRange32(minValue, maxValue, raw).value == FromRange(minValue, maxValue, raw)
  {
    if minValue < maxValue && maxValue - minValue > INT_MAX {
      assert Wrap32(maxValue - minValue) == maxValue - minValue - TWO_32;
    } else if maxValue < minValue && minValue - maxValue > INT_MAX {
      assert Wrap32(minValue - maxValue) == minValue - maxValue - TWO_32;
    }
  }

  // The angle normalisation of setSpeedModuleAndAngleRange, 32-bit.

  /** `maxAngle` after `k` executions of `maxAngle += 360` on an `int`. */
  function AngleAfter(maxAngle: int, k: nat): (r: int)
    requires IsInt32(maxAngle)
    ensures IsInt32(r)
  {
    if k == 0 then maxAngle else Wrap32(AngleAfter(maxAngle, k - 1) + 360)
  }

  /** Adding 360 never changes an angle's remainder modulo 8, wrapped or not. */
  lemma {:induction false} AngleAfterMod8(maxAngle: int, k: nat)
    requires IsInt32(maxAngle)
    ensures AngleAfter(maxAngle, k) % 8 == maxAngle % 8
  {
    if k > 0 {
      AngleAfterMod8(maxAngle, k - 1);
      Wrap32Mod8(AngleAfter(maxAngle, k - 1) + 360);
    }
  }

  /**
   * With `minAngle == Integer.MAX_VALUE` and `maxAngle == 2147483640` the loop
   * condition `maxAngle < minAngle` holds after every number of iterations: the
   * value needed, `Integer.MAX_VALUE`, is 7 modulo 8 and every value reached is 0.
   */
  lemma AngleLoopNeverEnds(k: nat)
    ensures AngleAfter(2147483640, k) < INT_MAX
  {
    AngleAfterMod8(2147483640, k);
  }

  /** Without wrap-around the 32-bit loop adds `k` whole turns. */
  lemma {:induction false} AngleAfterNoWrap(maxAngle: int, k: nat)
    requires IsInt32(maxAngle) && maxAngle + 360 * k <= INT_MAX
    ensures AngleAfter(maxAngle, k) == maxAngle + 360 * k
  {
    if k > 0 {
      AngleAfterNoWrap(maxAngle, k - 1);
    }
  }

  /**
   * When `minAngle` leaves a whole turn of headroom below `Integer.MAX_VALUE`, the
   * 32-bit loop stops after the same number of turns as the unbounded one, with
   * `Sampling.NormalizedMaxAngle`, and not before.
   */
  lemma AngleLoopAgrees(minAngle: int, maxAngle: int)
    requires IsInt32(minAngle) && IsInt32(maxAngle)
    requires maxAngle < minAngle <= INT_MAX - 360
    ensures var turns := (minAngle - maxAngle + 359) / 360;
      && AngleAfter(maxAngle, turns) == NormalizedMaxAngle(minAngle, maxAngle)
      && forall j: nat | j < turns :: AngleAfter(maxAngle, j) < minAngle
  {
    var turns := (minAngle - maxAngle + 359) / 360;
    assert 360 * turns < minAngle - maxAngle + 360;
    AngleAfterNoWrap(maxAngle, turns);
    forall j: nat | j < turns ensures AngleAfter(maxAngle, j) < minAngle {
      AngleAfterNoWrap(maxAngle, j);
    }
  }
}

=== FILE: particle.dfy ===
/**
 * The particle objects the system pools and reuses, and the modifiers that are
 * handed to each particle on activation.
 */
module Particles {

  /** The easing curve of a fade; only its identity is kept. */
  datatype Interpolator = Linear | CustomInterpolator(id: nat)

  /** A modifier applied to a particle on every tick of its life. */
  datatype Modifier =
    | AlphaFade(initialAlpha: int, finalAlpha: int, startMs: int, endMs: int, interpolator: Interpolator)
    | CustomModifier(id: nat)

  /**
   * A reusable particle. Only the state the engine itself writes is kept:
   * the initial rotation (set by a rotation initializer), and what
   * `configure` and `activate` record.
   */
  class Particle {
    /** Whether the particle plays a frame animation (an `AnimatedParticle`) or shows one bitmap. */
    const animated: bool
    var initialRotation: int
    var timeToLive: int
    var x: int
    var y: int
    /** The time the particle was activated at; its age is measured from here. */
    var startingMs: int
    var modifiers: seq<Modifier>

    constructor (animated: bool)
      ensures this.animated == animated
      ensures initialRotation == 0 && timeToLive == 0 && x == 0 && y == 0
      ensures startingMs == 0 && modifiers == []
    {
      this.animated := animated;
      initialRotation, timeToLive, x, y := 0, 0, 0, 0;
      startingMs, modifiers := 0, [];
    }

    /** Sets the lifetime and places the particle at its origin. */
    method Configure(timeToLive: int, originX: int, originY: int)
      modifies this`timeToLive, this`x, this`y
      ensures this.timeToLive == timeToLive && x == originX && y == originY
    {
      this.timeToLive := timeToLive;
      x, y := originX, originY;
    }

    /** Records the activation time and the modifiers to run on every tick. */
    method Activate(startingMs: int, modifiers: seq<Modifier>)
      modifies this`startingMs, this`modifiers
      ensures this.startingMs == startingMs && this.modifiers == modifiers
    {
      this.startingMs := startingMs;
      this.modifiers := modifiers;
    }
  }
}

=== FILE: particle_system.dfy ===
/**
 * The particle system: a fixed pool of reusable particles, the list of active
 * ones, the registered initializers and modifiers, and the tick that emits new
 * particles and returns expired ones to the pool.
 */
module Engine {
  import opened Options
  import opened Randomness
  import opened Particles
  import opened Initializers
  import opened Sampling
  import opened Tick

  /** The image a system is built with; it decides whether its particles animate. */
  datatype Image = Bitmap | Drawable(isAnimation: bool) | Animation

  function Animates(image: Image): bool {
    image.Animation? || (image.Drawable? && image.isAnimation)
  }

  /** How many particles construction creates: none for a negative maximum. */
  function PoolSize(maxParticles: int): nat {
    if maxParticles < 0 then 0 else maxParticles
  }

  /** No particle occurs more than once. */
  ghost predicate NoRepeats(m: multiset<Particle>) {
    forall p | p in m :: m[p] == 1
  }

  /** In a list without repeats, different positions hold different particles. */
  lemma DistinctAt(s: seq<Particle>, i: int, j: int)
    requires NoRepeats(multiset(s)) && 0 <= i < j < |s|
    ensures s[i] != s[j]
  {
    var front, rest := s[..j], s[j + 1..];
    assert s == front + [s[j]] + rest;
    assert front[i] == s[i];
    assert multiset(s)[s[i]] == multiset(front)[s[i]] + multiset{s[j]}[s[i]] + multiset(rest)[s[i]];
  }

  /** In a list without repeats, the particle at `n` is at no other position. */
  lemma OnlyAt(s: seq<Particle>, n: int)
    requires NoRepeats(multiset(s)) && 0 <= n < |s|
    ensures forall j | 0 <= j < |s| && j != n :: s[j] != s[n]
  {
    forall j | 0 <= j < |s| && j != n ensures s[j] != s[n] {
      if j < n {
        DistinctAt(s, j, n);
      } else {
        DistinctAt(s, n, j);
      }
    }
  }

  /** A part of a collection without repeats has none either. */
  lemma NoRepeatsPart(part: multiset<Particle>, others: multiset<Particle>)
    requires NoRepeats(part + others)
    ensures NoRepeats(part)
  {
    forall p | p in part ensures part[p] == 1 {
      assert p in part + others;
    }
  }

  /** Moving the first `k` pooled particles to the end of the active list loses and adds none. */
  lemma MoveConserves(pool: seq<Particle>, active: seq<Particle>, k: nat)
    requires k <= |pool|
    ensures multiset(pool[k..]) + multiset(active + pool[..k]) == multiset(pool) + multiset(active)
    ensures |pool[k..]| + |active + pool[..k]| == |pool| + |active|
  {
    assert pool == pool[..k] + pool[k..];
  }

  /** A whole tick, emission then update, keeps pool and active list together the same particles. */
  lemma TickConserves(pool0: seq<Particle>, active0: seq<Particle>, k: nat, pool1: seq<Particle>, active1: seq<Particle>,
                      pool2: seq<Particle>, active2: seq<Particle>, alive: (Particle, int) -> bool, ms: int)
    requires k <= |pool0| && pool1 == pool0[k..] && active1 == active0 + pool0[..k]
    requires active2 == Survivors(active1, alive, ms) && pool2 == pool1 + Expired(active1, alive, ms)
    ensures multiset(pool2) + multiset(active2) == multiset(pool0) + multiset(active0)
    ensures |pool2| + |active2| == |pool0| + |active0|
  {
    MoveConserves(pool0, active0, k);
    UpdateConserves(pool1, active1, alive, ms);
  }

  /**
   * One round of the update loop: the particle at index `i` is the first one not
   * yet visited, and removing it (when expired) or stepping past it (when alive)
   * restores the loop's description with one more particle visited.
   */
  lemma UpdateStep(active: seq<Particle>, pool: seq<Particle>, pool0: seq<Particle>, updated: seq<Particle>,
                   rest: seq<Particle>, i: int, alive: (Particle, int) -> bool, ms: int)
    requires |rest| > 0
    requires active == Survivors(updated, alive, ms) + rest
    requires i == |Survivors(updated, alive, ms)|
    requires pool == pool0 + Expired(updated, alive, ms)
    ensures 0 <= i < |active| && active[i] == rest[0]
    ensures var visited := updated + [rest[0]];
      if alive(rest[0], ms) then
        && active == Survivors(visited, alive, ms) + rest[1..]
        && i + 1 == |Survivors(visited, alive, ms)|
        && pool == pool0 + Expired(visited, alive, ms)
      else
        && active[..i] + active[i + 1..] == Survivors(visited, alive, ms) + rest[1..]
        && i == |Survivors(visited, alive, ms)|
        && pool + [rest[0]] == pool0 + Expired(visited, alive, ms)
  {
    var kept := Survivors(updated, alive, ms);
    SurvivorsSnoc(updated, rest[0], alive, ms);
    assert active == (kept + [rest[0]]) + rest[1..];
    assert active[..i] + active[i + 1..] == kept + rest[1..];
  }

  /** The numbers of the draws that gave a particle its origin and its rotation. */
  datatype Draws = Draws(x: nat, y: nat, rotation: nat) {
    /** Every one of the draws is numbered `lo` to `hi`. */
    predicate Within(lo: nat, hi: nat) {
      lo <= x <= hi && lo <= y <= hi && lo <= rotation <= hi
    }
  }

  /** Creates `n` new particles, all distinct. */
  method NewParticles(n: nat, animated: bool) returns (ps: seq<Particle>)
    ensures |ps| == n && NoRepeats(multiset(ps))
    ensures forall p | p in ps :: fresh(p) && p.animated == animated
  {
    ps := [];
    for i := 0 to n
      invariant |ps| == i && NoRepeats(multiset(ps))
      invariant forall p | p in ps :: fresh(p) && p.animated == animated
    {
      var p := new Particle(animated);
      ps := ps + [p];
    }
  }

  class ParticleSystem {
    const maxParticles: int
    const timeToLive: int
    /** Pixels per density-independent pixel (read from the display in the program). */
    const pxPerDp: real
    const rng: Random

    /** The inactive particles: activation takes the first, expiry appends at the end. */
    var pool: seq<Particle>
    var active: seq<Particle>
    /** The particles created at construction; the system holds exactly these, each once. */
    ghost const owned: multiset<Particle>

    var currentTime: int
    /** The emission rate; the program keeps it as `particlesPerSecond / 1000f` per millisecond. */
    var particlesPerSecond: int
    var activatedParticles: int
    /** The emission cutoff: -1 for none, otherwise emission stops at this time. */
    var emittingTime: int
    var modifiers: seq<Modifier>
    var initializers: seq<Initializer>
    var emitterXMin: int
    var emitterXMax: int
    var emitterYMin: int
    var emitterYMax: int

    /** Pool conservation and ownership: every particle is pooled or active, exactly once. */
    ghost predicate Valid()
      reads this
    {
      && |pool| + |active| == PoolSize(maxParticles)
      && multiset(pool) + multiset(active) == owned
      && NoRepeats(owned)
      && activatedParticles >= 0
    }

    constructor (maxParticles: int, image: Image, timeToLive: int, pxPerDp: real, rng: Random)
      ensures Valid()
      ensures this.maxParticles == maxParticles && this.timeToLive == timeToLive
      ensures this.pxPerDp == pxPerDp && this.rng == rng
      ensures |pool| == PoolSize(maxParticles) && active == []
      ensures forall p | p in pool :: fresh(p) && p.animated == Animates(image)
      ensures initializers == [] && modifiers == []
      ensures currentTime == 0 && particlesPerSecond == 0 && activatedParticles == 0 && emittingTime == 0
      ensures emitterXMin == 0 && emitterXMax == 0 && emitterYMin == 0 && emitterYMax == 0
    {
      this.maxParticles := maxParticles;
      this.timeToLive := timeToLive;
      this.pxPerDp := pxPerDp;
      this.rng := rng;
      modifiers, initializers := [], [];
      var ps := NewParticles(PoolSize(maxParticles), Animates(image));
      pool, active := ps, [];
      owned := multiset(ps);
      currentTime, particlesPerSecond, activatedParticles, emittingTime := 0, 0, 0, 0;
      emitterXMin, emitterXMax, emitterYMin, emitterYMax := 0, 0, 0, 0;
    }

    function DpToPx(dp: real): real {
      dp * pxPerDp
    }

    // Builder calls: each registers one initializer or modifier and changes nothing else.

    method AddModifier(modifier: Modifier)
      modifies this`modifiers
      ensures modifiers == old(modifiers) + [modifier]
    {
      modifiers := modifiers + [modifier];
    }

    method SetSpeedRange(speedMin: real, speedMax: real)
      modifies this`initializers
      ensures initializers == old(initializers) + [SpeedModuleAndRange(DpToPx(speedMin), DpToPx(speedMax), 0, 360)]
    {
      initializers := initializers + [SpeedModuleAndRange(DpToPx(speedMin), DpToPx(speedMax), 0, 360)];
    }

    /** The maximum angle is first brought to at least the minimum by whole turns. */
    method SetSpeedModuleAndAngleRange(speedMin: real, speedMax: real, minAngle: int, maxAngle: int)
      modifies this`initializers
      ensures initializers == old(initializers) +
        [SpeedModuleAndRange(DpToPx(speedMin), DpToPx(speedMax), minAngle, NormalizedMaxAngle(minAngle, maxAngle))]
    {
      var normalized := NormalizeMaxAngle(minAngle, maxAngle);
      initializers := initializers + [SpeedModuleAndRange(DpToPx(speedMin), DpToPx(speedMax), minAngle, normalized)];
    }

    method SetSpeedByComponentsRange(speedMinX: real, speedMaxX: real, speedMinY: real, speedMaxY: real)
      modifies this`initializers
      ensures initializers == old(initializers) +
        [SpeedByComponents(DpToPx(speedMinX), DpToPx(speedMaxX), DpToPx(speedMinY), DpToPx(speedMaxY))]
    {
      initializers := initializers +
        [SpeedByComponents(DpToPx(speedMinX), DpToPx(speedMaxX), DpToPx(speedMinY), DpToPx(speedMaxY))];
    }

    method SetInitialRotationRange(minAngle: int, maxAngle: int)
      modifies this`initializers
      ensures |initializers| == |old(initializers)| + 1
      ensures initializers[..|old(initializers)|] == old(initializers)
      ensures var added := initializers[|old(initializers)|];
        added.Rotation? && fresh(added.rotation) &&
        added.rotation.minAngle == minAngle && added.rotation.maxAngle == maxAngle
    {
      var rotation := new RotationInitializer(minAngle, maxAngle);
      initializers := initializers + [Rotation(rotation)];
    }

    method SetScaleRange(minScale: real, maxScale: real)
      modifies this`initializers
      ensures initializers == old(initializers) + [Scale(minScale, maxScale)]
    {
      initializers := initializers + [Scale(minScale, maxScale)];
    }

    method SetRotationSpeed(rotationSpeed: real)
      modifies this`initializers
      ensures initializers == old(initializers) + [RotationSpeed(rotationSpeed, rotationSpeed)]
    {
      initializers := initializers + [RotationSpeed(rotationSpeed, rotationSpeed)];
    }

    method SetRotationSpeedRange(minRotationSpeed: real, maxRotationSpeed: real)
      modifies this`initializers
      ensures initializers == old(initializers) + [RotationSpeed(minRotationSpeed, maxRotationSpeed)]
    {
      initializers := initializers + [RotationSpeed(minRotationSpeed, maxRotationSpeed)];
    }

    /** Unlike the speed variant, this one does not normalise its angle range. */
    method SetAccelerationModuleAndAndAngleRange(minAcceleration: real, maxAcceleration: real, minAngle: int, maxAngle: int)
      modifies this`initializers
      ensures initializers == old(initializers) +
        [Acceleration(DpToPx(minAcceleration), DpToPx(maxAcceleration), minAngle, maxAngle)]
    {
      initializers := initializers + [Acceleration(DpToPx(minAcceleration), DpToPx(maxAcceleration), minAngle, maxAngle)];
    }

    /** A missing (null) initializer is ignored. */
    method AddInitializer(initializer: Option<Initializer>)
      modifies this`initializers
      ensures initializers == old(initializers) + (if initializer.Some? then [initializer.value] else [])
    {
      if initializer.Some? {
        initializers := initializers + [initializer.value];
      }
    }

    /** A fixed acceleration, taken as given (no density scaling). */
    method SetAcceleration(acceleration: real, angle: int)
      modifies this`initializers
      ensures initializers == old(initializers) + [Acceleration(acceleration, acceleration, angle, angle)]
    {
      initializers := initializers + [Acceleration(acceleration, acceleration, angle, angle)];
    }

    method SetStartTime(time: int)
      modifies this`currentTime
      ensures currentTime == time
    {
      currentTime := time;
    }

    /** Fades alpha from 255 to 0 over the last `millisecondsBeforeEnd` of each particle's life. */
    method SetFadeOut(millisecondsBeforeEnd: int, interpolator: Interpolator)
      modifies this`modifiers
      ensures modifiers == old(modifiers) + [AlphaFade(255, 0, timeToLive - millisecondsBeforeEnd, timeToLive, interpolator)]
    {
      modifiers := modifiers + [AlphaFade(255, 0, timeToLive - millisecondsBeforeEnd, timeToLive, interpolator)];
    }

    method SetLinearFadeOut(duration: int)
      modifies this`modifiers
      ensures modifiers == old(modifiers) + [AlphaFade(255, 0, timeToLive - duration, timeToLive, Linear)]
    {
      SetFadeOut(duration, Linear);
    }

    // Emitter geometry and emission control.

    /** A missing array, or one of fewer than four values, leaves the emitter as it was. */
    twostate predicate EmitterSetFrom(emitter: Option<seq<int>>)
      reads this
    {
      if emitter.None? || |emitter.value| < 4 then
        emitterXMin == old(emitterXMin) && emitterXMax == old(emitterXMax) &&
        emitterYMin == old(emitterYMin) && emitterYMax == old(emitterYMax)
      else
        emitterXMin == emitter.value[0] && emitterXMax == emitter.value[1] &&
        emitterYMin == emitter.value[2] && emitterYMax == emitter.value[3]
    }

    method ConfigureEmitter(emitter: Option<seq<int>>)
      modifies this`emitterXMin, this`emitterXMax, this`emitterYMin, this`emitterYMax
      ensures EmitterSetFrom(emitter)
    {
      if emitter.None? || |emitter.value| < 4 {
        return;
      }
      emitterXMin := emitter.value[0];
      emitterXMax := emitter.value[1];
      emitterYMin := emitter.value[2];
      emitterYMax := emitter.value[3];
    }

    /** Starts a run: the activation count restarts at 0 and the cutoff is lifted. */
    method PrepareEmitting(particlesPerSecond: int, emitter: Option<seq<int>>)
      requires Valid()
      modifies this`emitterXMin, this`emitterXMax, this`emitterYMin, this`emitterYMax
      modifies this`activatedParticles, this`particlesPerSecond, this`emittingTime
      ensures Valid()
      ensures EmitterSetFrom(emitter)
      ensures activatedParticles == 0 && this.particlesPerSecond == particlesPerSecond && emittingTime == -1
    {
      ConfigureEmitter(emitter);
      activatedParticles := 0;
      this.particlesPerSecond := particlesPerSecond;
      emittingTime := -1;
    }

    method UpdateEmitPoint(emitter: Option<seq<int>>)
      modifies this`emitterXMin, this`emitterXMax, this`emitterYMin, this`emitterYMax
      ensures EmitterSetFrom(emitter)
    {
      ConfigureEmitter(emitter);
    }

    /** Emission ends at the current time, as if the emitter had been time-limited. */
    method StopEmitting()
      modifies this`emittingTime
      ensures emittingTime == currentTime
    {
      emittingTime := currentTime;
    }

    // Activation.

    /** `getFromRange`: draws between the bounds, consulting the random source only when they differ. */
    method GetFromRange(minValue: int, maxValue: int) returns (r: int)
      modifies rng
      ensures r == FromRange(minValue, maxValue, rng.raw(old(rng.taken)))
      ensures rng.taken == if minValue == maxValue then old(rng.taken) else old(rng.taken) + 1
    {
      if minValue == maxValue {
        return minValue;
      }
      if minValue < maxValue {
        var d := rng.NextInt(maxValue - minValue);
        r := d + minValue;
      } else {
        var d := rng.NextInt(minValue - maxValue);
        r := d + maxValue;
      }
    }

    /**
     * Runs the initializers in registration order, so the rotation a particle
     * ends with is the one the last rotation initializer drew; `t` numbers that draw.
     */
    method RunInitializers(p: Particle) returns (ghost t: nat)
      requires RotationRangesOk(initializers)
      modifies p`initialRotation, rng
      ensures old(rng.taken) <= t <= rng.taken
      ensures match LastRotation(initializers)
        case None => p.initialRotation == old(p.initialRotation)
        case Some(last) =>
          InSampleRange(last.minAngle, last.maxAngle, p.initialRotation)
          && p.initialRotation == FromRange(last.minAngle, last.maxAngle, rng.raw(t))
    {
      t := rng.taken;
      for i := 0 to |initializers|
        invariant old(rng.taken) <= t <= rng.taken
        invariant match LastRotation(initializers[..i])
          case None => p.initialRotation == old(p.initialRotation)
          case Some(last) =>
            p.initialRotation == FromRange(last.minAngle, last.maxAngle, rng.raw(t))
      {
        assert initializers[..i + 1][..i] == initializers[..i];
        match initializers[i]
        case Rotation(rotation) =>
          t := rng.taken;
          rotation.InitParticle(p, rng);
        case _ =>
          // The effects of the other initializers are not part of this model.
      }
      assert initializers[..|initializers|] == initializers;
    }

    /**
     * What activation at time `ms` leaves on a particle under the current
     * configuration: its timing and modifiers, an origin inside the emitter and,
     * when a rotation initializer is registered, a rotation in the last one's range.
     */
    ghost predicate Emitted(p: Particle, ms: int)
      reads this`modifiers, this`initializers, p
      reads this`emitterXMin, this`emitterXMax, this`emitterYMin, this`emitterYMax
    {
      && p.startingMs == ms && p.timeToLive == timeToLive && p.modifiers == modifiers
      && InSampleRange(emitterXMin, emitterXMax, p.x)
      && InSampleRange(emitterYMin, emitterYMax, p.y)
      && (LastRotation(initializers).Some? ==>
            InSampleRange(LastRotation(initializers).value.minAngle, LastRotation(initializers).value.maxAngle, p.initialRotation))
    }

    /**
     * Moves the head of the pool to the end of the active list, initialised,
     * placed and activated; `d` numbers the draws it took.
     */
    method ActivateParticle(delay: int) returns (ghost d: Draws)
      requires |pool| > 0 && RotationRangesOk(initializers)
      modifies this`pool, this`active, this`activatedParticles, rng, pool[0]
      ensures pool == old(pool)[1..] && active == old(active) + [old(pool)[0]]
      ensures activatedParticles == old(activatedParticles) + 1
      ensures Emitted(old(pool)[0], delay)
      ensures LastRotation(initializers).None? ==> old(pool)[0].initialRotation == old(pool[0].initialRotation)
      ensures d.Within(old(rng.taken), rng.taken)
      ensures old(pool)[0].x == FromRange(emitterXMin, emitterXMax, rng.raw(d.x))
      ensures old(pool)[0].y == FromRange(emitterYMin, emitterYMax, rng.raw(d.y))
      ensures LastRotation(initializers).Some? ==>
        var last := LastRotation(initializers).value;
        old(pool)[0].initialRotation == FromRange(last.minAngle, last.maxAngle, rng.raw(d.rotation))
    {
      var p := pool[0];
      assert pool == [p] + pool[1..];
      pool := pool[1..];
      ghost var tr := RunInitializers(p);
      ghost var tx := rng.taken;
      var particleX := GetFromRange(emitterXMin, emitterXMax);
      ghost var ty := rng.taken;
      var particleY := GetFromRange(emitterYMin, emitterYMax);
      d := Draws(tx, ty, tr);
      ghost var rotation := p.initialRotation;
      p.Configure(timeToLive, particleX, particleY);
      p.Activate(delay, modifiers);
      assert p.x == particleX && p.y == particleY && p.initialRotation == rotation;
      active := active + [p];
      activatedParticles := activatedParticles + 1;
    }

    // The tick.

    /** The emission loop of a tick: activates particles while the cutoff, the pool and the rate allow. */
    method EmitParticles(ms: int)
      requires NoRepeats(multiset(pool))
      requires EmitCount(|pool|, activatedParticles, particlesPerSecond, ms, emittingTime) > 0 ==> RotationRangesOk(initializers)
      modifies this`pool, this`active, this`activatedParticles, rng, pool
      ensures var k := EmitCount(|old(pool)|, old(activatedParticles), particlesPerSecond, ms, emittingTime);
        && pool == old(pool)[k..] && active == old(active) + old(pool)[..k]
        && activatedParticles == old(activatedParticles) + k
        && forall j | 0 <= j < k :: Emitted(old(pool)[j], ms)
      ensures var k := EmitCount(|old(pool)|, old(activatedParticles), particlesPerSecond, ms, emittingTime);
        LastRotation(initializers).None? ==> forall j | 0 <= j < k :: old(pool)[j].initialRotation == old(pool[j].initialRotation)
      ensures var k := EmitCount(|old(pool)|, old(activatedParticles), particlesPerSecond, ms, emittingTime);
        forall j | k <= j < |old(pool)| :: unchanged(old(pool)[j])
    {
      ghost var pool0, active0, activated0 := pool, active, activatedParticles;
      ghost var total := EmitCount(|pool|, activatedParticles, particlesPerSecond, ms, emittingTime);
      ghost var n := 0;
      while EmissionOpen(emittingTime, ms) && |pool| > 0 && BelowRate(activatedParticles, particlesPerSecond, ms)
        invariant 0 <= n <= |pool0|
        invariant pool == pool0[n..] && active == active0 + pool0[..n]
        invariant activatedParticles == activated0 + n
        invariant total == n + EmitCount(|pool|, activatedParticles, particlesPerSecond, ms, emittingTime)
        invariant forall j | 0 <= j < n :: Emitted(pool0[j], ms)
        invariant LastRotation(initializers).None? ==> forall j | 0 <= j < n :: pool0[j].initialRotation == old(pool0[j].initialRotation)
        invariant forall j | n <= j < |pool0| :: unchanged(pool0[j])
        decreases |pool|
      {
        OnlyAt(pool0, n);
        assert pool0[..n + 1] == pool0[..n] + [pool0[n]];
        ghost var d := ActivateParticle(ms);
        n := n + 1;
      }
    }

    /**
     * The update loop of a tick: asks every active particle, once and in order,
     * whether it is still alive at `ms`; those that are not are removed (the
     * index steps back so that no particle is skipped) and appended to the pool.
     */
    method UpdateParticles(ms: int, alive: (Particle, int) -> bool) returns (ghost updated: seq<Particle>)
      modifies this`pool, this`active
      ensures updated == old(active)
      ensures active == Survivors(old(active), alive, ms)
      ensures pool == old(pool) + Expired(old(active), alive, ms)
    {
      ghost var pool0, active0 := pool, active;
      // `updated` is the visited prefix of the original list and `rest` the part still to visit.
      ghost var rest := active;
      updated := [];
      var i := 0;
      while i < |active|
        invariant updated + rest == active0
        invariant active == Survivors(updated, alive, ms) + rest
        invariant i == |Survivors(updated, alive, ms)|
        invariant pool == pool0 + Expired(updated, alive, ms)
        decreases |active| - i
      {
        UpdateStep(active, pool, pool0, updated, rest, i, alive, ms);
        var stillAlive := alive(active[i], ms);
        updated, rest := updated + [active[i]], rest[1..];
        if !stillAlive {
          var p := active[i];
          active := active[..i] + active[i + 1..];
          i := i - 1;
          pool := pool + [p];
        }
        i := i + 1;
      }
    }

    /** `onUpdate(ms)`: the emission loop, then the update loop over the active list it left. */
    method OnUpdate(ms: int, alive: (Particle, int) -> bool) returns (ghost updated: seq<Particle>)
      requires Valid()
      requires EmitCount(|pool|, activatedParticles, particlesPerSecond, ms, emittingTime) > 0 ==> RotationRangesOk(initializers)
      modifies this`pool, this`active, this`activatedParticles, rng, pool
      ensures Valid()
      ensures var k := EmitCount(|old(pool)|, old(activatedParticles), particlesPerSecond, ms, emittingTime);
        && activatedParticles == old(activatedParticles) + k
        && updated == old(active) + old(pool)[..k]
        && active == Survivors(updated, alive, ms)
        && pool == old(pool)[k..] + Expired(updated, alive, ms)
        && forall j | 0 <= j < k :: Emitted(old(pool)[j], ms)
      ensures var k := EmitCount(|old(pool)|, old(activatedParticles), particlesPerSecond, ms, emittingTime);
        LastRotation(initializers).None? ==> forall j | 0 <= j < k :: old(pool)[j].initialRotation == old(pool[j].initialRotation)
      ensures var k := EmitCount(|old(pool)|, old(activatedParticles), particlesPerSecond, ms, emittingTime);
        forall j | k <= j < |old(pool)| :: unchanged(old(pool)[j])
    {
      NoRepeatsPart(multiset(pool), multiset(active));
      ghost var pool0, active0 := pool, active;
      ghost var k := EmitCount(|pool|, activatedParticles, particlesPerSecond, ms, emittingTime);
      EmitParticles(ms);
      assert particlesPerSecond == old(particlesPerSecond) && emittingTime == old(emittingTime);
      ghost var pool1, active1 := pool, active;
      updated := UpdateParticles(ms, alive);
      TickConserves(pool0, active0, k, pool1, active1, pool, active, alive, ms);
    }
  }

  /**
   * `stopEmitting` followed by a tick at or after the stop time: nothing is
   * activated, and the tick only retires the expired particles to the pool.
   * A stop at time 0 or earlier (but not at -1, the "no limit" value) silences
   * every later tick.
   */
  method StopThenTick(s: ParticleSystem, ms: int, alive: (Particle, int) -> bool) returns (ghost updated: seq<Particle>)
    requires s.Valid()
    requires s.currentTime != -1 && (s.currentTime <= 0 || ms >= s.currentTime)
    modifies s`emittingTime, s`pool, s`active, s`activatedParticles, s.rng, s.pool
    ensures s.Valid()
    ensures s.activatedParticles == old(s.activatedParticles)
    ensures updated == old(s.active)
    ensures s.active == Survivors(old(s.active), alive, ms)
    ensures s.pool == old(s.pool) + Expired(old(s.active), alive, ms)
    ensures forall p | p in old(s.pool) :: unchanged(p)
  {
    s.StopEmitting();
    ghost var pool0, active0 := s.pool, s.active;
    assert pool0 == old(s.pool) && active0 == old(s.active);
    NoEmissionAfterStop(|s.pool|, s.activatedParticles, s.particlesPerSecond, ms, s.emittingTime);
    assert pool0[..0] == [] && pool0[0..] == pool0 && active0 + [] == active0;
    updated := s.OnUpdate(ms, alive);
  }
}

=== FILE: random.dfy ===
/**
 * The random-number source that the particle system and its initializers share
 * (a `java.util.Random` in the program). It is modelled as an oracle: an
 * arbitrary stream of raw values, one consumed per draw, so that whatever is
 * proved about a draw holds for every sequence of values the source could produce.
 */
module Randomness {

  class Random {
    /** The raw value of the draw at each position of the stream. */
    const raw: nat -> int
    /** How many draws have been taken so far. */
    var taken: nat

    constructor (raw: nat -> int)
      ensures this.raw == raw && taken == 0
    {
      this.raw := raw;
      taken := 0;
    }

    /** `nextInt(bound)`: a value in [0, bound); Java rejects a bound that is not positive. */
    method NextInt(bound: int) returns (r: int)
      requires bound > 0
      modifies this
      ensures 0 <= r < bound
      ensures r == raw(old(taken)) % bound
      ensures taken == old(taken) + 1
    {
      r := raw(taken) % bound;
      taken := taken + 1;
    }
  }
}

=== FILE: sampling.dfy ===
/**
 * The integer helpers of the particle system: drawing a value between two
 * bounds given in either order, and normalising an angle range that wraps
 * past 0 degrees.
 */
module Sampling {

  /**
   * `v` is a value a draw between `lo` and `hi` can give: `lo` itself when the
   * bounds are equal, otherwise a value from the smaller bound (included) up to
   * the larger one (excluded).
   */
  predicate InSampleRange(lo: int, hi: int, v: int) {
    if lo == hi then v == lo
    else if lo < hi then lo <= v < hi
    else hi <= v < lo
  }

  /**
   * `getFromRange`: the value drawn between `minValue` and `maxValue` when the
   * random source yields `raw`. Defined for every pair of bounds.
   */
  function FromRange(minValue: int, maxValue: int, raw: int): (r: int)
    ensures minValue == maxValue ==> r == minValue
    ensures minValue < maxValue ==> minValue <= r < maxValue
    ensures maxValue < minValue ==> maxValue <= r < minValue
  {
    if minValue == maxValue then minValue
    else if minValue < maxValue then raw % (maxValue - minValue) + minValue
    else raw % (minValue - maxValue) + maxValue
  }

  /** Every value of the range is produced by some draw: the range is covered, not just bounded. */
  lemma FromRangeCovers(minValue: int, maxValue: int, v: int)
    requires InSampleRange(minValue, maxValue, v)
    ensures exists raw :: FromRange(minValue, maxValue, raw) == v
  {
    var raw := if minValue <= maxValue then v - minValue else v - maxValue;
    assert FromRange(minValue, maxValue, raw) == v;
  }

  /**
   * The normalised maximum angle in closed form: `maxAngle` when it is already
   * at least `minAngle`, else the least value above `minAngle` reached by whole turns.
   */
  function NormalizedMaxAngle(minAngle: int, maxAngle: int): int {
    if maxAngle >= minAngle then maxAngle
    else maxAngle + 360 * ((minAngle - maxAngle + 359) / 360)
  }

  /**
   * Adds whole turns to `maxAngle` until it is no less than `minAngle`, so that a
   * range such as 270..90 becomes 270..450 and keeps crossing 0 degrees.
   */
  method NormalizeMaxAngle(minAngle: int, maxAngle: int) returns (r: int)
    ensures r >= minAngle
    ensures (r - maxAngle) % 360 == 0
    ensures maxAngle >= minAngle ==> r == maxAngle
    ensures maxAngle < minAngle ==> r < minAngle + 360
    ensures r == NormalizedMaxAngle(minAngle, maxAngle)
  {
    r := maxAngle;
    ghost var turns := 0;
    while r < minAngle
      invariant turns >= 0 && r == maxAngle + 360 * turns
      invariant maxAngle < minAngle ==> r < minAngle + 360
      invariant turns > 0 ==> r - 360 < minAngle
      decreases minAngle - r
    {
      r := r + 360;
      turns := turns + 1;
    }
    if maxAngle < minAngle {
      var d := minAngle - maxAngle;
      assert 360 * turns - 360 < d <= 360 * turns;
      assert (d + 359) / 360 == turns;
    }
  }
}

=== FILE: tick.dfy ===
/**
 * What one tick of the particle system does, as functions of the state the
 * tick starts from: how many particles the emission loop activates, and which
 * active particles the update loop keeps or returns to the pool.
 */
module Tick {
  import opened Particles

  /**
   * The cutoff rule: an emitting time of -1 means "no limit"; a positive one
   * allows emission strictly before it; any other value (0 after construction,
   * or after stopping at time 0) forbids emission.
   */
  predicate EmissionOpen(emittingTime: int, ms: int) {
    (emittingTime > 0 && ms < emittingTime) || emittingTime == -1
  }

  /**
   * The rate rule: fewer particles have been activated than the rate allows by
   * time `ms`. With a rate of `particlesPerSecond / 1000` per millisecond,
   * `activated < rate * ms` is `activated * 1000 < particlesPerSecond * ms`.
   */
  predicate BelowRate(activated: int, particlesPerSecond: int, ms: int) {
    activated * 1000 < particlesPerSecond * ms
  }

  /** How many particles the emission loop of a tick at `ms` activates, from a pool of `poolSize`. */
  function EmitCount(poolSize: nat, activated: int, particlesPerSecond: int, ms: int, emittingTime: int): (k: nat)
    ensures k <= poolSize
    ensures k > 0 ==> EmissionOpen(emittingTime, ms) && BelowRate(activated, particlesPerSecond, ms)
    decreases poolSize
  {
    if poolSize > 0 && EmissionOpen(emittingTime, ms) && BelowRate(activated, particlesPerSecond, ms)
    then 1 + EmitCount(poolSize - 1, activated + 1, particlesPerSecond, ms, emittingTime)
    else 0
  }

  /** The least count of activations that the rate no longer stays above: the ceiling of `target / 1000`. */
  function RateQuota(target: int): int {
    (target + 999) / 1000
  }

  lemma BelowRateQuota(activated: int, target: int)
    ensures activated * 1000 < target <==> activated < RateQuota(target)
  {
  }

  /**
   * The emission loop in closed form: nothing when the cutoff forbids it,
   * otherwise as many particles as the rate still owes, but no more than the pool holds.
   * A system that falls behind (its pool ran dry) catches up in one burst.
   */
  lemma {:induction false} EmitCountClosedForm(poolSize: nat, activated: int, particlesPerSecond: int, ms: int, emittingTime: int)
    ensures var owed := RateQuota(particlesPerSecond * ms) - activated;
      EmitCount(poolSize, activated, particlesPerSecond, ms, emittingTime) ==
        if !EmissionOpen(emittingTime, ms) || owed <= 0 then 0
        else if owed < poolSize then owed
        else poolSize
  {
    var target := particlesPerSecond * ms;
    BelowRateQuota(activated, target);
    if poolSize > 0 && EmissionOpen(emittingTime, ms) && BelowRate(activated, particlesPerSecond, ms) {
      EmitCountClosedForm(poolSize - 1, activated + 1, particlesPerSecond, ms, emittingTime);
    }
  }

  /**
   * The emission loop stops for one of its three reasons: the pool is empty,
   * the cutoff forbids emission, or the rate has been reached; and before that
   * every round was below the rate.
   */
  lemma {:induction false} EmitCountStops(poolSize: nat, activated: int, particlesPerSecond: int, ms: int, emittingTime: int)
    ensures var k := EmitCount(poolSize, activated, particlesPerSecond, ms, emittingTime);
      k == poolSize || !EmissionOpen(emittingTime, ms) || !BelowRate(activated + k, particlesPerSecond, ms)
    ensures var k := EmitCount(poolSize, activated, particlesPerSecond, ms, emittingTime);
      forall a | activated <= a < activated + k :: BelowRate(a, particlesPerSecond, ms)
  {
    if poolSize > 0 && EmissionOpen(emittingTime, ms) && BelowRate(activated, particlesPerSecond, ms) {
      EmitCountStops(poolSize - 1, activated + 1, particlesPerSecond, ms, emittingTime);
    }
  }

  /**
   * Once emission has been stopped at time `stoppedAt` (any value but the
   * "infinite" -1), no tick at or after that time activates a particle, and if
   * it was stopped at time 0 or earlier no tick at all does.
   */
  lemma NoEmissionAfterStop(poolSize: nat, activated: int, particlesPerSecond: int, ms: int, stoppedAt: int)
    requires stoppedAt != -1
    requires stoppedAt <= 0 || ms >= stoppedAt
    ensures EmitCount(poolSize, activated, particlesPerSecond, ms, stoppedAt) == 0
  {
  }

  /**
   * A cutoff of -1 is "no limit": stopping at current time -1 leaves emission
   * open, and a tick below the rate with a non-empty pool still activates.
   */
  lemma NoCutoffEmits(poolSize: nat, activated: int, particlesPerSecond: int, ms: int)
    requires poolSize > 0 && BelowRate(activated, particlesPerSecond, ms)
    ensures EmitCount(poolSize, activated, particlesPerSecond, ms, -1) > 0
  {
  }

  /** A rate of zero particles per second never emits, whatever the time and the pool. */
  lemma NoEmissionAtZeroRate(poolSize: nat, activated: int, ms: int, emittingTime: int)
    requires activated >= 0
    ensures EmitCount(poolSize, activated, 0, ms, emittingTime) == 0
  {
  }

  /** The particles of `s` whose update at `ms` reports them still alive, in their order in `s`. */
  function Survivors(s: seq<Particle>, alive: (Particle, int) -> bool, ms: int): seq<Particle>
  {
    if s == [] then []
    else Survivors(s[..|s| - 1], alive, ms) + (if alive(s[|s| - 1], ms) then [s[|s| - 1]] else [])
  }

  /** The particles of `s` whose update at `ms` reports them expired, in their order in `s`. */
  function Expired(s: seq<Particle>, alive: (Particle, int) -> bool, ms: int): seq<Particle>
  {
    if s == [] then []
    else Expired(s[..|s| - 1], alive, ms) + (if alive(s[|s| - 1], ms) then [] else [s[|s| - 1]])
  }

  /** Filtering one more particle extends exactly one of the two lists by it. */
  lemma SurvivorsSnoc(s: seq<Particle>, x: Particle, alive: (Particle, int) -> bool, ms: int)
    ensures Survivors(s + [x], alive, ms) == Survivors(s, alive, ms) + (if alive(x, ms) then [x] else [])
    ensures Expired(s + [x], alive, ms) == Expired(s, alive, ms) + (if alive(x, ms) then [] else [x])
  {
    assert (s + [x])[..|s|] == s;
  }

  /** Survivors and expired particles together are exactly the particles of `s`: none lost, none duplicated. */
  lemma {:induction false} SurvivorsExpiredPartition(s: seq<Particle>, alive: (Particle, int) -> bool, ms: int)
    ensures multiset(Survivors(s, alive, ms)) + multiset(Expired(s, alive, ms)) == multiset(s)
    ensures |Survivors(s, alive, ms)| + |Expired(s, alive, ms)| == |s|
  {
    if s != [] {
      var n := |s| - 1;
      var front := s[..n];
      SurvivorsExpiredPartition(front, alive, ms);
      assert s == front + [s[n]];
      assert multiset(s) == multiset(front) + multiset{s[n]};
      if alive(s[n], ms) {
        assert Survivors(s, alive, ms) == Survivors(front, alive, ms) + [s[n]];
        assert Expired(s, alive, ms) == Expired(front, alive, ms);
      } else {
        assert Survivors(s, alive, ms) == Survivors(front, alive, ms);
        assert Expired(s, alive, ms) == Expired(front, alive, ms) + [s[n]];
      }
    }
  }

  /** Returning the expired particles of `s` to a pool keeps pool and active list together the same particles. */
  lemma UpdateConserves(pool: seq<Particle>, s: seq<Particle>, alive: (Particle, int) -> bool, ms: int)
    ensures multiset(pool + Expired(s, alive, ms)) + multiset(Survivors(s, alive, ms)) == multiset(pool) + multiset(s)
    ensures |pool + Expired(s, alive, ms)| + |Survivors(s, alive, ms)| == |pool| + |s|
  {
    SurvivorsExpiredPartition(s, alive, ms);
  }

  /** Every survivor is alive and every expired particle is not. */
  lemma {:induction false} SurvivorsSound(s: seq<Particle>, alive: (Particle, int) -> bool, ms: int)
    ensures forall p | p in Survivors(s, alive, ms) :: p in s && alive(p, ms)
    ensures forall p | p in Expired(s, alive, ms) :: p in s && !alive(p, ms)
  {
    if s != [] {
      var n := |s| - 1;
      var front := s[..n];
      SurvivorsSound(front, alive, ms);
      assert s == front + [s[n]];
    }
  }

  /** Filtering a concatenation filters each part and keeps their order. */
  lemma {:induction false} SurvivorsAppend(a: seq<Particle>, b: seq<Particle>, alive: (Particle, int) -> bool, ms: int)
    ensures Survivors(a + b, alive, ms) == Survivors(a, alive, ms) + Survivors(b, alive, ms)
    ensures Expired(a + b, alive, ms) == Expired(a, alive, ms) + Expired(b, alive, ms)
  {
    if b == [] {
      assert a + b == a;
    } else {
      var n := |b| - 1;
      assert (a + b)[..|a + b| - 1] == a + b[..n];
      assert (a + b)[|a + b| - 1] == b[n];
      SurvivorsAppend(a, b[..n], alive, ms);
    }
  }

  /** When every particle is still alive, the active list is kept as it is and nothing is pooled. */
  lemma {:induction false} AllAliveKeepsAll(s: seq<Particle>, alive: (Particle, int) -> bool, ms: int)
    requires forall p | p in s :: alive(p, ms)
    ensures Survivors(s, alive, ms) == s && Expired(s, alive, ms) == []
  {
    if s != [] {
      var n := |s| - 1;
      var front := s[..n];
      forall p | p in front ensures alive(p, ms) {
        assert p in s;
      }
      AllAliveKeepsAll(front, alive, ms);
      assert s[n] in s;
      assert s == front + [s[n]];
    }
  }
}
